=== FILE: README.md ===
# hyperlinked — a verified model of the link and line formatting core

hyperlinked makes diagnostic output clickable. Each printed line is wrapped in
an OSC 8 hyperlink whose uri points an editor at the source line that printed
it. The Go packages `hyperlinked` and `ps` also stamp each line with the
milliseconds since a start time. `ps` can additionally truncate lines to the
terminal width and print a stack dump. The Python package builds the same
envelope around `file://` uris and formats traceback frames.

This project models the pure part of that machinery in Dafny and proves what
it promises:

- `Osc8`: the envelope `ESC ] 8 ; ; uri ESC \ text ESC ] 8 ; ; ESC \`. It
  follows section 8.3.89 (OSC) and section 8.3.143 (ST) of ECMA-48. The
  module has a reader for the envelope, and the two are proved inverse.
- `Decimal`: `%d` / `str()` rendering of integers and `strconv.Atoi`
  parsing, proved inverse on the 64-bit range.
- `RuneWidth`: go-runewidth, kept abstract. A `Condition` carries the
  display-width function and the library's cut point. `Lawful` states the
  laws the truncator relies on: widths add up, a rune is at most 2 columns
  wide, and the cut is a whole-rune prefix within the target.
- `Hyperlinked`: package `hyperlinked`, covering:
  - the three uri templates and the cursor fallback;
  - the caller-link fallback of `Hyperlink`;
  - the start-time `Timer` class and the `RelativeMs` label;
  - the `[%5d] msg` layout of `Ln`.
- `Ps`: package `ps`, covering:
  - `termWidth`;
  - `truncateToWidth`;
  - `lastIndex`, as a loop;
  - `Stack`, as a loop over an abstract frame sequence;
  - the truncating `Hyperlink` and `Ln`.
- `PyHyperlinked`: the Python package, covering:
  - `hyperlink` and `hyperlink_to_path`;
  - `hyperlinked`'s fallback;
  - `_format_hyperlinked_frame`;
  - the frame selection of `print_stack`.

`ps.go` repeats `FormatOSC8`, `FormatURL`, the timer and `RelativeMs` of
`hyperlinked.go` line for line. Both packages therefore use one definition of
each, in `Osc8` and `Hyperlinked`.

Strings are sequences of Unicode code points, one `char` per rune. The
environment, the clock and the caller lookup are explicit parameters:

- `Config` holds `LinkFormat`, `Truncate` and the `HYPERLINKED_COLUMNS`
  text.
- Instants are nanosecond counts.
- A caller is an `Option<Location>`.

The comment on `truncateToWidth` (go/ps/ps.go:60-61) promises that the text
fits within the given width. With a one-column ellipsis,
`Ps.TruncateFitsWidth` proves that the result is at most `width` columns
wide.

`Config.linkFormat` is the link format after `getEnvDefault` has applied its
default. `Hyperlinked.LinkFormatFromEnv` models that defaulting, and
`Hyperlinked.UnsetFormatIsCursor` ties it to the uri templates.

## Model

| member | source | states |
|---|---|---|
| Text.PadLeftLayout | go/hyperlinked.go:82 | `%5d` right-aligns: the field is 5 wide, or the digits alone when they are longer; it ends in the digits and holds only spaces before them |
| Text.LastIndexOfSpec | go/ps/ps.go:250-257 | the index found holds the byte sought and no later position does; -1 means the string holds none |
| Text.LastIndexOfAt | go/ps/ps.go:250-257 | a position holding the byte with none after it is the one found |
| Decimal.NatToStringDigits | go/hyperlinked.go:103-105 | `%d` of a non-negative value is a non-empty run of digits without a leading zero whose value is the number |
| Decimal.IntToStringSpec | go/hyperlinked.go:103-105 | `%d` starts with '-' exactly for negative values, and the digits after it give the magnitude |
| Decimal.Atoi | go/ps/ps.go:53 | Atoi succeeds exactly on an optional sign and decimal digits whose value is in the int64 range (leading zeros and "+0"/"-0" included), and then returns that value |
| Decimal.ParseIntToString | go/hyperlinked.go:103-105 | parsing undoes `%d` for every integer |
| Decimal.AtoiIntToString | go/ps/ps.go:53 | Atoi undoes `%d` for every int64 |
| Decimal.IntToStringChars | go/hyperlinked.go:103-105 | `%d` output holds only digits and a leading minus sign |
| RuneWidth.StringWidthBound | go/ps/ps.go:73 | a string is at most twice as many columns wide as it has runes |
| RuneWidth.TruncateSpec | go/ps/ps.go:87 | runewidth.Truncate returns a fitting string unchanged; otherwise a proper whole-rune prefix within the target, followed by the tail |
| Osc8.FormatOSC8Framing | go/hyperlinked.go:120-124 | for any text and any uri, the empty uri included, the envelope opens with `ESC ] 8 ; ;`, closes with `ESC ] 8 ; ; ESC \` and has the summed length |
| Osc8.ParseFormatOSC8 | go/ps/ps.go:178-182 | reading the envelope back gives the uri and the text whenever the uri holds no ESC |
| Osc8.FormatParseOSC8 | go/hyperlinked.go:120-124 | everything that reads back as a link is exactly that link's envelope, so envelopes and ESC-free uris with texts correspond one to one |
| Osc8.EscCount | go/ps/ps.go:179-181 | the envelope adds exactly four ESCs: two OSC introducers and two string terminators |
| Hyperlinked.LinkFormatFromEnv | go/hyperlinked.go:32-39 | the link format is the variable when it is set and non-empty, "cursor" otherwise |
| Hyperlinked.UnsetFormatIsCursor | go/hyperlinked.go:32-39 | with HYPERLINKED_FORMAT unset or empty, uris use the cursor template |
| Hyperlinked.FormatURLScheme | go/hyperlinked.go:127-138 | the wormhole uri is chosen exactly for "wormhole", the vscode uri exactly for "vscode", and the cursor uri for every other format |
| Hyperlinked.FormatURLReadsBack | go/ps/ps.go:185-196 | every uri gives back its file and line: the wormhole uri ends in `?land-in=editor`; before that query, the last ':' follows the fixed prefix and the file, and what follows it is exactly `%d` of the line, which parses back |
| Hyperlinked.LocationReadsBack | go/hyperlinked.go:130-136 | in "prefix file:line", the last ':' ends the file, and what follows it is `%d` of the line, which parses back |
| Hyperlinked.FormatURLNoEsc | go/hyperlinked.go:127-138 | a uri holds no ESC when its file name holds none |
| Hyperlinked.Hyperlink | go/hyperlinked.go:110-117 | with no caller the text comes back unchanged; otherwise it is FormatOSC8 of the untruncated text and the caller's uri, and reads back as that link whenever the file name holds no ESC |
| Hyperlinked.Milliseconds | go/hyperlinked.go:101 | Duration.Milliseconds truncates toward zero on both sides of 0 |
| Hyperlinked.Timer.constructor | go/hyperlinked.go:41-44 | the start time begins as the zero time |
| Hyperlinked.Timer.StartTimer | go/hyperlinked.go:48-52 | StartTimer sets the start time to the given current instant |
| Hyperlinked.Timer.ElapsedMs | go/hyperlinked.go:77-80 | the stamp is 0 until the timer is started, and afterwards the elapsed time in milliseconds truncated toward zero, never negative once the clock has passed the start |
| Hyperlinked.ElapsedMsMonotone | go/ps/ps.go:131-134 | once started, the stamp never decreases as the clock advances |
| Hyperlinked.Timer.RelativeMs | go/hyperlinked.go:88-106 | "now" for the zero time whatever the timer holds; the absolute rendering while unstarted; otherwise a signed offset starting with '+' exactly when the offset truncates to 0 or more |
| Hyperlinked.SignedMsReadsBack | go/hyperlinked.go:101-105 | `+%d` for offsets of 0 or more and `%d` for negative ones: the sign tells the two apart, the shortest decimal digits of the magnitude follow it (no leading zeros), and the label parses back to the offset |
| Hyperlinked.RelativeMsReadsBack | go/ps/ps.go:155-159 | with the timer started, the label is the signed rendering of the millisecond offset and parses back to it |
| Hyperlinked.RelativeMsJustBeforeStart | go/hyperlinked.go:101-103 | an instant under a millisecond before the start is labelled "+0" |
| Hyperlinked.LnTextReadsBack | go/hyperlinked.go:82 | an Ln line opens with '[', its first ']' closes the padded stamp, the stamp reads back as ms, and the message sits between "] " and the final newline |
| Hyperlinked.LnTextFields | go/hyperlinked.go:82 | where the stamp, the "] " separator and the message sit in an Ln line |
| Hyperlinked.PaddedReadsBack | go/hyperlinked.go:82 | the 5-column stamp, stripped of its padding, parses back as ms |
| Hyperlinked.Ln | go/hyperlinked.go:72-84 | Ln's output is the stamped line with no caller; otherwise it is FormatOSC8 of that line and the caller's uri, and reads back as that link whenever the file name holds no ESC |
| Hyperlinked.LnNeverStarted | go/hyperlinked.go:77-82 | before StartTimer the stamp reads `[    0] ` |
| Ps.TermWidthSpec | go/ps/ps.go:51-58 | termWidth is never negative, and it is positive exactly when the variable parses as a positive int, which it then returns |
| Ps.TermWidthReadsBack | go/ps/ps.go:51-58 | every positive int64, with or without '+', is taken as the width |
| Ps.StripNewline | go/ps/ps.go:68-71 | exactly one trailing newline is set aside, and only when there is one |
| Ps.TargetWidth | go/ps/ps.go:82-85 | the target is width - 1 for a positive width and never negative |
| Ps.TruncateToWidthSpec | go/ps/ps.go:62-93 | a width of 0 or less returns the text unchanged, and the result ends in a newline exactly when the text does |
| Ps.TruncateFitting | go/ps/ps.go:68-79 | text whose body fits comes back exactly as it was |
| Ps.TruncateCutting | go/ps/ps.go:81-92 | text that does not fit becomes a proper whole-rune prefix of its body, at most width - 1 wide, plus "…" |
| Ps.TruncateFitsWidth | go/ps/ps.go:81-92 | with a one-column ellipsis the truncated body is at most width columns wide |
| Ps.TruncateIdempotent | go/ps/ps.go:62-93 | with a one-column ellipsis, truncating twice is truncating once |
| Ps.Shown | go/ps/ps.go:166-168 | with Truncate on, the text is truncateToWidth of it at termWidth; with Truncate off or no width it is shown as it is; the trailing newline is kept either way |
| Ps.Hyperlink | go/ps/ps.go:165-175 | with no caller the possibly truncated text comes back plain; otherwise it is FormatOSC8 of that text and the caller's uri, and reads back as that link whenever the file name holds no ESC |
| Ps.Ln | go/ps/ps.go:126-138 | Ln prints the stamped line `[%5d] msg`, truncated when Truncate is on: plain with no caller, otherwise FormatOSC8 of it and the caller's uri, which reads back as that link whenever the file name holds no ESC; what it shows still ends in a newline |
| Ps.LastIndex | go/ps/ps.go:250-257 | the backward scan returns the last index of the byte, or -1 |
| Ps.TrimPackageSpec | go/ps/ps.go:231-234 | the trimmed name holds no '/', is a suffix of the full name, and is the whole name when it had no '/' |
| Ps.StackLineReadsBack | go/ps/ps.go:236-241 | each stack line is one link to its frame's uri; its text is the `[%5d] #i name` line as Shown makes it (truncated to termWidth when Truncate is on), ends in a newline, and is that line itself when nothing truncates |
| Ps.FormatFrame | go/ps/ps.go:231-241 | one loop iteration prints the line that StackLine defines for the frame and its index |
| Ps.StackLinesAt | go/ps/ps.go:224-247 | line i of the dump belongs to frame i and carries index i |
| Ps.Stack | go/ps/ps.go:200-248 | the stamp is the timer's elapsed milliseconds at the given instant; the dump has min(n, frames) lines, none for n <= 0, and line i is frame i's line with index i |
| Ps.StackFrames | go/ps/ps.go:218-247 | the frame loop emits min(n, frames) lines, none for n <= 0, and line i is frame i's line with index i and the given stamp |
| PyHyperlinked.Hyperlink | python/src/hyperlinked/__init__.py:59-63 | the Python envelope is the same as Go's FormatOSC8 |
| PyHyperlinked.FileURLReadsBack | python/src/hyperlinked/__init__.py:73-75 | the uri starts with scheme://file/path; ":line" follows exactly when a line is given, where the line text is exactly `str(line)` and parses back to that line |
| PyHyperlinked.FileURLNoEsc | python/src/hyperlinked/__init__.py:73-75 | the file uri holds no ESC when its scheme and path hold none |
| PyHyperlinked.HyperlinkToPath | python/src/hyperlinked/__init__.py:66-76 | the result is the envelope of the text and the file uri, and reads back as that link whenever scheme and path hold no ESC |
| PyHyperlinked.HyperlinkAtCaller | python/src/hyperlinked/__init__.py:43-56 | with no caller frame the text comes back as it is; otherwise it is the envelope of the text and the caller's file uri, which reads back as that link whenever scheme and path hold no ESC |
| PyHyperlinked.Strip | python/src/hyperlinked/__init__.py:142 | str.strip keeps the inner run of s: it neither starts nor ends with whitespace, and only whitespace was dropped around it |
| PyHyperlinked.StripIdempotent | python/src/hyperlinked/__init__.py:142 | stripping twice is stripping once |
| PyHyperlinked.FormatHyperlinkedFrameLayout | python/src/hyperlinked/__init__.py:131-143 | the first line is two spaces, one link from the location text to the frame's uri, ", in " and the name; a second line of four spaces and the stripped source follows exactly when the frame has a non-empty source line |
| PyHyperlinked.PrintStackCallers | python/src/hyperlinked/__init__.py:93-99 | without f, print_stack prints its callers but not itself: at most limit of them, the innermost ones, outermost first |
| PyHyperlinked.PrintStackNegativeLimit | python/src/hyperlinked/__init__.py:93-99 | without f and with a negative limit, -1 prints nothing; when the stack holds more than -k - 1 frames, k <= -2 prints only the -k - 2 outermost frames, because the limit + 1 and [:-1] drop a real caller and not print_stack's own frame; on a shallower stack every frame is kept and the output is exactly that of print_stack with no limit |

## Left out

- Stack and caller introspection is not modelled. This covers `runtime.Caller`, `runtime.Callers`, `runtime.CallersFrames`, `inspect` and `traceback`. Frames are an input sequence and a caller is an `Option`.
- Environment reads are parameters: `HYPERLINKED_FORMAT`, `HYPERLINKED_NO_TRUNCATE`, `HYPERLINKED_COLUMNS` and `HYPERLINKED_SCHEME`.
- Writes to stdout and stderr are left out. So are the `for frame in stack` printing loops of `print_stack` and `excepthook`.
- The `sync.RWMutex` around the start time is left out, because it serves only concurrency. The timer is a plain object.
- `time.Now` and `time.Since` are left out; instants are integer nanoseconds.
- Go's int64 saturation of `Duration` is not modelled.
- The RFC 3339 rendering of an absolute time is an opaque string parameter.
- `F`, with its caller-supplied format verbs, is not modelled.
- `Path.resolve()` is not modelled; the resolved path is given.
- PyHyperlinked.PrintStackNegativeLimit records what the code does with a negative limit. The model does not say what was intended there.
- Python's own `print` wrapper is not modelled. Its fallback calls itself, not the builtin.
- `sys.tracebacklimit` is not modelled.
- go-runewidth's width tables, grapheme clusters and exact cut point are left out. `StringWidth` is additive over concatenation and at most 2 per rune. `Truncate` keeps some whole-rune prefix within the target, and which prefix is left open.
- Go strings are bytes; invalid UTF-8 is not modelled. `lastIndex` scans bytes, but '/' is ASCII, so the suffix it yields is the same on runes.
- Ps.TruncateFitsWidth assumes the ellipsis is one column wide. go-runewidth may count it as two under East Asian ambiguous-width settings, and the model makes no claim there.
- Ps.TruncateIdempotent assumes the same one-column ellipsis.
- Ps.Stack requires `n + 2 >= 0`: below that, allocating the pc buffer panics at run time.
- Ps.Stack takes `frames` as what the runtime yields. The `n + 2` pc buffer only bounds that sequence, and the loop stops after `n` lines anyway.

=== FILE: decimal.dfy ===
/** Decimal integers: the rendering of fmt's %d and of Python's str() on an
    int, and the parsing of strconv.Atoi. */
module Decimal {
  import opened Wrappers

  /** The range of Go's int on a 64-bit platform. */
  const MinInt64: int := -0x8000_0000_0000_0000
  const MaxInt64: int := 0x7FFF_FFFF_FFFF_FFFF

  predicate IsDigit(c: char) {
    '0' <= c <= '9'
  }

  predicate AllDigits(s: string) {
    forall i :: 0 <= i < |s| ==> IsDigit(s[i])
  }

  function DigitChar(d: nat): (c: char)
    requires d < 10
    ensures IsDigit(c) && c as int - '0' as int == d
  {
    (d + '0' as int) as char
  }

  /** The value of a string of decimal digits, most significant first. */
  function DigitsValue(s: string): nat
    requires AllDigits(s)
  {
    if s == [] then 0 else 10 * DigitsValue(s[..|s| - 1]) + (s[|s| - 1] as int - '0' as int)
  }

  /** The shortest decimal rendering of n. */
  function NatToString(n: nat): string
  {
    if n < 10 then [DigitChar(n)] else NatToString(n / 10) + [DigitChar(n % 10)]
  }

  /** The rendering of n is a non-empty run of digits, without a leading zero
      unless it is "0" itself, whose value is n. */
  lemma {:induction false} NatToStringDigits(n: nat)
    ensures var s := NatToString(n);
      && |s| > 0 && AllDigits(s)
      && (|s| > 1 ==> s[0] != '0')
      && DigitsValue(s) == n
  {
    if n >= 10 {
      var p := NatToString(n / 10);
      NatToStringDigits(n / 10);
      var s := p + [DigitChar(n % 10)];
      assert s[..|s| - 1] == p;
      assert s[0] == p[0];
    }
  }

  /** %d and str(): a minus sign for negative values, then the digits of the magnitude. */
  function IntToString(i: int): string
  {
    if i < 0 then "-" + NatToString(-i) else NatToString(i)
  }

  /** The rendering of i is non-empty, starts with '-' exactly when i is
      negative, and its digits after the sign have the magnitude of i as value. */
  lemma IntToStringSpec(i: int)
    ensures var s := IntToString(i);
      && |s| > 0
      && ((s[0] == '-') <==> (i < 0))
      && (i >= 0 ==> AllDigits(s) && DigitsValue(s) == i)
      && (i < 0 ==> |s| > 1 && AllDigits(s[1..]) && DigitsValue(s[1..]) == -i)
  {
    if i < 0 {
      NatToStringDigits(-i);
      assert IntToString(i)[1..] == NatToString(-i);
    } else {
      NatToStringDigits(i);
    }
  }

  /** An optional sign followed by one or more decimal digits, with no bound
      on the value. */
  function ParseDecimal(s: string): (r: Option<int>)
    ensures r.Some? ==> |s| > 0
  {
    if s == [] then None
    else
      var signed := s[0] == '+' || s[0] == '-';
      var digits := if signed then s[1..] else s;
      if digits == [] || !AllDigits(digits) then None
      else if s[0] == '-' then Some(-(DigitsValue(digits) as int))
      else Some(DigitsValue(digits))
  }

  /** strconv.Atoi: an optional sign and decimal digits whose value fits in a
      64-bit int; anything else is an error (None). */
  function Atoi(s: string): (r: Option<int>)
    ensures r.Some? ==> MinInt64 <= r.value <= MaxInt64
    ensures r.Some? ==> ParseDecimal(s) == r
    ensures ParseDecimal(s).Some? && MinInt64 <= ParseDecimal(s).value <= MaxInt64 ==> r == ParseDecimal(s)
  {
    match ParseDecimal(s)
    case Some(v) => if MinInt64 <= v <= MaxInt64 then Some(v) else None
    case None => None
  }

  /** Parsing undoes rendering, for every integer. */
  lemma ParseIntToString(i: int)
    ensures ParseDecimal(IntToString(i)) == Some(i)
  {
    var s := IntToString(i);
    IntToStringSpec(i);
    if i < 0 {
      assert s[1..] == NatToString(-i);
    } else {
      assert !IsDigit('+') && !IsDigit('-');
      assert s[0] != '+';
    }
  }

  /** A leading plus sign is accepted and does not change the value. */
  lemma ParsePlusNatToString(n: nat)
    ensures ParseDecimal("+" + NatToString(n)) == Some(n)
  {
    NatToStringDigits(n);
    assert ("+" + NatToString(n))[1..] == NatToString(n);
  }

  /** Atoi undoes rendering on the 64-bit range. */
  lemma AtoiIntToString(i: int)
    requires MinInt64 <= i <= MaxInt64
    ensures Atoi(IntToString(i)) == Some(i)
  {
    ParseIntToString(i);
  }

  /** Rendered integers hold only digits and a leading minus sign. */
  lemma IntToStringChars(i: int, k: nat)
    requires k < |IntToString(i)|
    ensures IsDigit(IntToString(i)[k]) || (k == 0 && IntToString(i)[k] == '-')
  {
    var s := IntToString(i);
    IntToStringSpec(i);
    if i < 0 && k > 0 {
      assert s[k] == s[1..][k - 1];
    }
  }
}

=== FILE: hyperlinked.dfy ===
/** The Go package hyperlinked: uri templates, the caller-link fallback, the
    relative-time label and the line layout of Ln. The package ps repeats
    FormatOSC8, FormatURL, the timer and RelativeMs line for line, so both use
    the definitions here (FormatOSC8 is in Osc8). */
module Hyperlinked {
  import opened Wrappers
  import opened Text
  import opened Decimal
  import opened Osc8

  /** getEnvDefault("HYPERLINKED_FORMAT", "cursor"): the variable's value, or
      "cursor" when it is unset or empty. */
  function LinkFormatFromEnv(env: string): (f: string)
    ensures f != ""
    ensures env != "" ==> f == env
    ensures env == "" ==> f == "cursor"
  {
    if env != "" then env else "cursor"
  }

  /** With HYPERLINKED_FORMAT unset or empty, uris use the cursor template. */
  lemma UnsetFormatIsCursor(file: string, line: int)
    ensures FormatURL(LinkFormatFromEnv(""), file, line) == CursorPrefix + (file + ":" + IntToString(line))
  {
  }

  const WormholePrefix: string := "http://wormhole:7117/file/"
  const WormholeSuffix: string := "?land-in=editor"
  const VscodePrefix: string := "vscode://file/"
  const CursorPrefix: string := "cursor://file/"

  predicate StartsWith(s: string, p: string) {
    |p| <= |s| && s[..|p|] == p
  }

  /** FormatURL: the editor uri for a source line, chosen by the link format;
      "cursor" and every unknown format share the cursor template. */
  function FormatURL(linkFormat: string, file: string, line: int): (url: string)
  {
    var location := file + ":" + IntToString(line);
    if linkFormat == "wormhole" then WormholePrefix + location + WormholeSuffix
    else if linkFormat == "vscode" then VscodePrefix + location
    else CursorPrefix + location
  }

  /** Each uri scheme belongs to exactly one choice of link format, and every
      format other than "wormhole" and "vscode" falls back to cursor. */
  lemma FormatURLScheme(linkFormat: string, file: string, line: int)
    ensures StartsWith(FormatURL(linkFormat, file, line), "http://wormhole:7117/") <==> linkFormat == "wormhole"
    ensures StartsWith(FormatURL(linkFormat, file, line), "vscode://") <==> linkFormat == "vscode"
    ensures StartsWith(FormatURL(linkFormat, file, line), "cursor://") <==> linkFormat != "wormhole" && linkFormat != "vscode"
  {
    var location := file + ":" + IntToString(line);
    var url := FormatURL(linkFormat, file, line);
    if linkFormat == "wormhole" {
      StartsWithAppend(WormholePrefix, location, "http://wormhole:7117/");
      StartsWithAppend(WormholePrefix + location, WormholeSuffix, "http://wormhole:7117/");
    } else if linkFormat == "vscode" {
      StartsWithAppend(VscodePrefix, location, "vscode://");
    } else {
      StartsWithAppend(CursorPrefix, location, "cursor://");
    }
    NotStartsWith(url, "http://wormhole:7117/");
    NotStartsWith(url, "vscode://");
    NotStartsWith(url, "cursor://");
  }

  /** A string that starts with p and goes on with rest starts with every
      prefix of p. */
  lemma StartsWithAppend(p: string, rest: string, q: string)
    requires StartsWith(p, q)
    ensures StartsWith(p + rest, q)
  {
    assert (p + rest)[..|q|] == p[..|q|];
  }

  /** A string does not start with one whose first character differs. */
  lemma NotStartsWith(s: string, o: string)
    ensures |s| > 0 && |o| > 0 && s[0] != o[0] ==> !StartsWith(s, o)
  {
    if |o| <= |s| && |s| > 0 && |o| > 0 && s[0] != o[0] {
      assert s[..|o|][0] != o[0];
    }
  }

  /** The file and line can be read back from every uri: the line is the
      decimal after the last ':' (before the query, for wormhole), and the file
      is what precedes that ':' after the scheme's fixed prefix, whatever ':'
      the file name itself holds. */
  lemma FormatURLReadsBack(linkFormat: string, file: string, line: int)
    ensures var url := FormatURL(linkFormat, file, line);
      var prefix := if linkFormat == "wormhole" then WormholePrefix
                    else if linkFormat == "vscode" then VscodePrefix else CursorPrefix;
      var body := if linkFormat == "wormhole" then url[..|url| - |WormholeSuffix|] else url;
      var i := LastIndexOf(body, ':');
      && (linkFormat == "wormhole" ==> url[|url| - |WormholeSuffix|..] == WormholeSuffix)
      && |prefix| + |file| == i && body[..i] == prefix + file
      && body[i + 1..] == IntToString(line) && ParseDecimal(body[i + 1..]) == Some(line)
  {
    var location := file + ":" + IntToString(line);
    if linkFormat == "wormhole" {
      var url := FormatURL(linkFormat, file, line);
      assert url == (WormholePrefix + location) + WormholeSuffix;
      assert url[..|url| - |WormholeSuffix|] == WormholePrefix + location;
      assert url[|url| - |WormholeSuffix|..] == WormholeSuffix;
      LocationReadsBack(WormholePrefix, file, line);
    } else if linkFormat == "vscode" {
      LocationReadsBack(VscodePrefix, file, line);
    } else {
      LocationReadsBack(CursorPrefix, file, line);
    }
  }

  /** The shared "prefix file:line" part of the three templates reads back. */
  lemma LocationReadsBack(prefix: string, file: string, line: int)
    ensures var body := prefix + (file + ":" + IntToString(line));
      var i := LastIndexOf(body, ':');
      && |prefix| + |file| == i && body[..i] == prefix + file
      && body[i + 1..] == IntToString(line) && ParseDecimal(body[i + 1..]) == Some(line)
  {
    var d := IntToString(line);
    forall k | 0 <= k < |d| ensures d[k] != ':' {
      IntToStringChars(line, k);
    }
    assert prefix + (file + ":" + d) == (prefix + file) + ":" + d;
    ColonFields(prefix + file, d);
    ParseIntToString(line);
  }

  /** In head, a ':' and then a tail free of ':', the last ':' is the one
      after head. */
  lemma ColonFields(head: string, tail: string)
    requires forall k :: 0 <= k < |tail| ==> tail[k] != ':'
    ensures var body := head + ":" + tail;
      var i := LastIndexOf(body, ':');
      i == |head| && body[..i] == head && body[i + 1..] == tail
  {
    var body := head + ":" + tail;
    var at := |head|;
    forall k | at < k < |body| ensures body[k] != ':' {
      assert body[k] == tail[k - at - 1];
    }
    LastIndexOfAt(body, ':', at);
    assert body[..at] == head;
    assert body[at + 1..] == tail;
  }

  /** A resolved caller: the file and line of a stack frame. */
  datatype Location = Location(file: string, line: int)

  /** Hyperlink: with no resolvable caller the text comes back plain; otherwise
      it comes back wrapped in one envelope linking to the caller's line. This
      package does not truncate. */
  function Hyperlink(linkFormat: string, text: string, caller: Option<Location>): (r: string)
    ensures caller.None? ==> r == text
    ensures caller.Some? ==> r == FormatOSC8(text, FormatURL(linkFormat, caller.value.file, caller.value.line))
    ensures caller.Some? && NoEsc(caller.value.file) ==>
      ParseOSC8(r) == Some(Link(FormatURL(linkFormat, caller.value.file, caller.value.line), text))
  {
    match caller
    case None => text
    case Some(loc) =>
      var url := FormatURL(linkFormat, loc.file, loc.line);
      if NoEsc(loc.file) then
        FormatURLNoEsc(linkFormat, loc.file, loc.line);
        ParseFormatOSC8(text, url);
        FormatOSC8(text, url)
      else FormatOSC8(text, url)
  }

  /** A uri holds an ESC only when its file name does. */
  lemma FormatURLNoEsc(linkFormat: string, file: string, line: int)
    requires NoEsc(file)
    ensures NoEsc(FormatURL(linkFormat, file, line))
  {
    var d := IntToString(line);
    forall k | 0 <= k < |d| ensures d[k] != Esc {
      IntToStringChars(line, k);
    }
    NoEscAppend(file, ":");
    NoEscAppend(file + ":", d);
    var rest := file + ":" + d;
    if linkFormat == "wormhole" {
      NoEscAppend(WormholePrefix, rest);
      NoEscAppend(WormholePrefix + rest, WormholeSuffix);
    } else if linkFormat == "vscode" {
      NoEscAppend(VscodePrefix, rest);
    } else {
      NoEscAppend(CursorPrefix, rest);
    }
  }

  /** time.Time: the zero time, or an instant in nanoseconds on a fixed scale. */
  datatype Time = Zero | At(nanos: int)

  /** Duration.Milliseconds: Go's integer division, truncating toward zero. */
  function Milliseconds(d: int): (ms: int)
    ensures d >= 0 ==> 0 <= ms && ms * 1_000_000 <= d < (ms + 1) * 1_000_000
    ensures d < 0 ==> ms <= 0 && (ms - 1) * 1_000_000 < d <= ms * 1_000_000
  {
    if d >= 0 then d / 1_000_000 else -((-d) / 1_000_000)
  }

  /** The package-wide start time. It is zero until StartTimer runs. */
  class Timer {
    var start: Time

    constructor ()
      ensures start == Zero
    {
      start := Zero;
    }

    /** StartTimer: time zero becomes the current instant. */
    method StartTimer(now: int)
      modifies this
      ensures start == At(now)
    {
      start := At(now);
    }

    /** The milliseconds F, Ln and Stack print: 0 while the timer was never
        started, otherwise the time since start, truncated toward zero. */
    function ElapsedMs(now: int): (ms: int)
      reads this
      ensures start == Zero ==> ms == 0
      ensures start.At? ==> ms == Milliseconds(now - start.nanos)
      ensures start.At? && now >= start.nanos ==> ms >= 0 && ms * 1_000_000 <= now - start.nanos
    {
      if start.Zero? then 0 else Milliseconds(now - start.nanos)
    }

    /** RelativeMs: "now" for the zero time whatever the timer holds; the
        absolute rendering while the timer was never started; otherwise the
        signed millisecond offset, with '+' for offsets of zero or more. */
    function RelativeMs(t: Time, absolute: string): (rel: string)
      reads this
      ensures t == Zero ==> rel == "now"
      ensures t.At? && start == Zero ==> rel == absolute
      ensures t.At? && start.At? ==> |rel| >= 2 && (rel[0] == '+') == (t.nanos - start.nanos > -1_000_000)
      ensures t.At? && start.At? ==> (rel[0] == '-') == (t.nanos - start.nanos <= -1_000_000)
    {
      if t.Zero? then "now"
      else if start.Zero? then absolute
      else
        var ms := Milliseconds(t.nanos - start.nanos);
        SignedMsReadsBack(ms);
        SignedMs(ms)
    }
  }

  /** An offset as "%d" prints it, with a '+' in front of offsets of zero or more. */
  function SignedMs(ms: int): string {
    if ms >= 0 then "+" + IntToString(ms) else IntToString(ms)
  }

  /** A signed offset reads back as itself; the sign is '+' exactly for
      offsets of zero or more, and after it come the shortest decimal digits
      of the magnitude. */
  lemma SignedMsReadsBack(ms: int)
    ensures var s := SignedMs(ms);
      && |s| >= 2 && (s[0] == '+' <==> ms >= 0) && (s[0] == '-' <==> ms < 0)
      && s[1..] == NatToString(if ms >= 0 then ms else -ms)
      && ParseDecimal(s) == Some(ms)
  {
    IntToStringSpec(ms);
    if ms >= 0 {
      assert IntToString(ms) == NatToString(ms);
      assert SignedMs(ms)[1..] == NatToString(ms);
      ParsePlusNatToString(ms);
    } else {
      assert SignedMs(ms)[1..] == NatToString(-ms);
      ParseIntToString(ms);
    }
  }

  /** Once started, the elapsed time never goes down as the clock moves on. */
  lemma ElapsedMsMonotone(timer: Timer, now1: int, now2: int)
    requires timer.start.At? && now1 <= now2
    ensures timer.ElapsedMs(now1) <= timer.ElapsedMs(now2)
  {
  }

  /** With the timer started, the label is the signed offset in milliseconds
      and reads back as it. */
  lemma RelativeMsReadsBack(timer: Timer, t: Time, absolute: string)
    requires t.At? && timer.start.At?
    ensures timer.RelativeMs(t, absolute) == SignedMs(Milliseconds(t.nanos - timer.start.nanos))
    ensures ParseDecimal(timer.RelativeMs(t, absolute)) == Some(Milliseconds(t.nanos - timer.start.nanos))
  {
    var ms := Milliseconds(t.nanos - timer.start.nanos);
    assert timer.RelativeMs(t, absolute) == SignedMs(ms);
    SignedMsReadsBack(ms);
  }

  /** An instant less than a millisecond before the start renders as "+0":
      Milliseconds truncates toward zero, so the sign is lost. */
  lemma RelativeMsJustBeforeStart(timer: Timer, t: Time, absolute: string)
    requires t.At? && timer.start.At? && -1_000_000 < t.nanos - timer.start.nanos < 0
    ensures timer.RelativeMs(t, absolute) == "+0"
  {
  }

  /** The text Ln prints before linking it: "[", the milliseconds right-aligned
      in five columns, "] ", the message and a newline. */
  function LnText(ms: int, msg: string): (r: string)
  {
    "[" + PadLeft(IntToString(ms), 5) + "] " + msg + "\n"
  }

  /** The Ln layout reads back: the first ']' closes the time field, whose
      digits give ms once the padding is dropped, and the message sits between
      "] " and the final newline, whatever ']' it holds itself. */
  lemma LnTextReadsBack(ms: int, msg: string)
    ensures var r := LnText(ms, msg);
      var j := IndexFrom(r, ']', 1);
      && r[0] == '[' && r[|r| - 1] == '\n'
      && j + 2 < |r| && j >= 6 && r[j..j + 2] == "] "
      && ParseDecimal(TrimLeadingSpaces(r[1..j])) == Some(ms)
      && r[j + 2..|r| - 1] == msg
  {
    LnTextFields(ms, msg);
    PaddedReadsBack(ms);
  }

  /** Where the fields of an Ln line sit. */
  lemma LnTextFields(ms: int, msg: string)
    ensures var p := PadLeft(IntToString(ms), 5);
      var r := LnText(ms, msg);
      && |r| == |p| + |msg| + 4 && r[0] == '[' && r[|r| - 1] == '\n'
      && IndexFrom(r, ']', 1) == 1 + |p| && r[1..1 + |p|] == p
      && r[1 + |p|..3 + |p|] == "] " && r[3 + |p|..|r| - 1] == msg
  {
    var p := PadLeft(IntToString(ms), 5);
    PaddedHasNo(ms, ']');
    BracketFields(p, msg);
  }

  /** The fields of "[" + p + "] " + msg + newline, when p holds no ']'. */
  lemma BracketFields(p: string, msg: string)
    requires forall k :: 0 <= k < |p| ==> p[k] != ']'
    ensures var r := "[" + p + "] " + msg + "\n";
      && |r| == |p| + |msg| + 4 && r[0] == '[' && r[|r| - 1] == '\n'
      && IndexFrom(r, ']', 1) == 1 + |p| && r[1..1 + |p|] == p
      && r[1 + |p|..3 + |p|] == "] " && r[3 + |p|..|r| - 1] == msg
  {
    var r := "[" + p + "] " + msg + "\n";
    var j := 1 + |p|;
    var tail := "] " + msg + "\n";
    assert r == "[" + p + tail;
    forall k | 1 <= k < j ensures r[k] != ']' {
      assert r[k] == p[k - 1];
    }
    assert r[j] == ']';
    IndexFromAfter(r, ']', 1, j);
    assert r[1..j] == p;
    assert r[j..] == tail;
    assert r[j..j + 2] == tail[..2] == "] ";
    assert r[j + 2..|r| - 1] == tail[2..|tail| - 1] == msg;
  }

  /** The padded time field reads back as ms. */
  lemma PaddedReadsBack(ms: int)
    ensures ParseDecimal(TrimLeadingSpaces(PadLeft(IntToString(ms), 5))) == Some(ms)
  {
    IntToStringChars(ms, 0);
    TrimPadLeft(IntToString(ms), 5);
    ParseIntToString(ms);
  }

  /** The padded time field holds only spaces, digits and a minus sign. */
  lemma PaddedHasNo(ms: int, ch: char)
    requires ch != ' ' && ch != '-' && !IsDigit(ch)
    ensures forall k :: 0 <= k < |PadLeft(IntToString(ms), 5)| ==> PadLeft(IntToString(ms), 5)[k] != ch
  {
    var d := IntToString(ms);
    var p := PadLeft(d, 5);
    forall k | 0 <= k < |p| ensures p[k] != ch {
      if k >= |p| - |d| {
        assert p[k] == d[k - (|p| - |d|)];
        IntToStringChars(ms, k - (|p| - |d|));
      }
    }
  }

  /** Ln: the line for msg, stamped with the elapsed time and linked to the caller. */
  function Ln(linkFormat: string, timer: Timer, now: int, msg: string, caller: Option<Location>): (r: string)
    reads timer
    ensures caller.None? ==> r == LnText(timer.ElapsedMs(now), msg)
    ensures caller.Some? ==>
      r == FormatOSC8(LnText(timer.ElapsedMs(now), msg), FormatURL(linkFormat, caller.value.file, caller.value.line))
    ensures caller.Some? && NoEsc(caller.value.file) ==>
      ParseOSC8(r) == Some(Link(FormatURL(linkFormat, caller.value.file, caller.value.line), LnText(timer.ElapsedMs(now), msg)))
  {
    Hyperlink(linkFormat, LnText(timer.ElapsedMs(now), msg), caller)
  }

  /** Before StartTimer the time field shows 0. */
  lemma LnNeverStarted(timer: Timer, now: int, msg: string)
    requires timer.start == Zero
    ensures LnText(timer.ElapsedMs(now), msg) == "[    0] " + msg + "\n"
  {
    assert IntToString(0) == "0";
  }
}

=== FILE: osc8.dfy ===
/** The OSC 8 hyperlink envelope: OSC 8 ; ; uri ST text OSC 8 ; ; ST, with OSC
    written in its 7-bit form ESC ] (section 8.3.89 of ECMA-48) and ST, the
    string terminator, as ESC \ (section 8.3.143 of ECMA-48). */
module Osc8 {
  import opened Wrappers
  import opened Text

  const Esc: char := '\U{1B}'
  const Osc: string := [Esc, ']']
  const St: string := [Esc, '\\']

  /** The fixed start of every envelope, before the uri. */
  const LinkStart: string := Osc + "8;;"
  /** The fixed end of every envelope: an OSC 8 with an empty uri closes the link. */
  const LinkEnd: string := Osc + "8;;" + St

  predicate NoEsc(s: string) {
    forall i :: 0 <= i < |s| ==> s[i] != Esc
  }

  /** Joining two strings without an ESC gives none. */
  lemma NoEscAppend(a: string, b: string)
    requires NoEsc(a) && NoEsc(b)
    ensures NoEsc(a + b)
  {
    forall k | 0 <= k < |a + b| ensures (a + b)[k] != Esc {
      if k >= |a| {
        assert (a + b)[k] == b[k - |a|];
      }
    }
  }

  /** A uri and the text it makes clickable. */
  datatype Link = Link(url: string, text: string)

  /** FormatOSC8: wraps text in a link to url. */
  function FormatOSC8(text: string, url: string): string
  {
    Osc + "8;;" + url + St + text + Osc + "8;;" + St
  }

  /** Total: any text and any url, the empty one included, give an envelope
      that opens with the fixed start and closes with the fixed end. */
  lemma FormatOSC8Framing(text: string, url: string)
    ensures var r := FormatOSC8(text, url);
      && |r| == |LinkStart| + |url| + |St| + |text| + |LinkEnd|
      && r[..|LinkStart|] == LinkStart && r[|r| - |LinkEnd|..] == LinkEnd
  {
    var r := FormatOSC8(text, url);
    assert r == LinkStart + (url + St + text + LinkEnd);
    assert r == (LinkStart + url + St + text) + LinkEnd;
  }

  /** Reads an envelope back: the uri runs from the fixed start up to the first
      ESC, which must begin an ST; the text runs from there to the fixed end. */
  function ParseOSC8(s: string): (r: Option<Link>)
  {
    if |s| < |LinkStart| + |St| + |LinkEnd| || s[..|LinkStart|] != LinkStart then None
    else
      var j := IndexFrom(s, Esc, |LinkStart|);
      if j + |St| + |LinkEnd| > |s| || s[j..j + |St|] != St || s[|s| - |LinkEnd|..] != LinkEnd then None
      else Some(Link(s[|LinkStart|..j], s[j + |St|..|s| - |LinkEnd|]))
  }

  /** Reading back an envelope gives the link it was made from, whenever the
      uri holds no ESC; the text may hold anything. */
  lemma ParseFormatOSC8(text: string, url: string)
    requires NoEsc(url)
    ensures ParseOSC8(FormatOSC8(text, url)) == Some(Link(url, text))
  {
    var s := FormatOSC8(text, url);
    var j := |LinkStart| + |url|;
    assert s == LinkStart + url + St + text + LinkEnd;
    assert s[..|LinkStart|] == LinkStart;
    assert s[j] == Esc;
    forall k | |LinkStart| <= k < j ensures s[k] != Esc {
      assert s[k] == url[k - |LinkStart|];
    }
    IndexFromAfter(s, Esc, |LinkStart|, j);
    assert s[j..j + |St|] == St;
    assert s[|LinkStart|..j] == url;
    assert s[j + |St|..|s| - |LinkEnd|] == text;
  }

  /** Every string that reads back as a link is exactly that link's envelope,
      and its uri holds no ESC: with ParseFormatOSC8, envelopes and links whose
      uri holds no ESC are in one-to-one correspondence. */
  lemma FormatParseOSC8(s: string)
    requires ParseOSC8(s).Some?
    ensures NoEsc(ParseOSC8(s).value.url)
    ensures FormatOSC8(ParseOSC8(s).value.text, ParseOSC8(s).value.url) == s
  {
    var l := ParseOSC8(s).value;
    var j := IndexFrom(s, Esc, |LinkStart|);
    assert l.url == s[|LinkStart|..j];
    forall i | 0 <= i < |l.url| ensures l.url[i] != Esc {
      assert l.url[i] == s[|LinkStart| + i];
    }
    assert s == s[..|LinkStart|] + s[|LinkStart|..j] + s[j..j + |St|] + s[j + |St|..|s| - |LinkEnd|] + s[|s| - |LinkEnd|..];
  }

  /** An envelope holds four ESCs more than its text and url together: with
      neither holding one, exactly two OSC introducers and two STs. */
  lemma EscCount(text: string, url: string)
    ensures multiset(FormatOSC8(text, url))[Esc] == multiset(text)[Esc] + multiset(url)[Esc] + 4
  {
    var s := FormatOSC8(text, url);
    assert s == Osc + "8;;" + url + St + text + Osc + "8;;" + St;
    assert multiset(Osc)[Esc] == 1 && multiset(St)[Esc] == 1 && multiset("8;;")[Esc] == 0;
  }
}

=== FILE: ps.dfy ===
/** The Go package ps: the hyperlinking print helpers of package hyperlinked
    plus truncation to the terminal width and a stack dump. FormatOSC8,
    FormatURL, the timer and RelativeMs are the same code as in package
    hyperlinked and come from the Osc8 and Hyperlinked modules. */
module Ps {
  import opened Wrappers
  import opened Text
  import opened Decimal
  import opened RuneWidth
  import opened Osc8
  import opened Hyperlinked

  /** The package-level settings: linkFormat is LinkFormat (from
      HYPERLINKED_FORMAT), truncate is Truncate (true when
      HYPERLINKED_NO_TRUNCATE is unset or empty), and columns is the value of
      HYPERLINKED_COLUMNS ("" when unset). */
  datatype Config = Config(linkFormat: string, truncate: bool, columns: string)

  /** termWidth: the column count when HYPERLINKED_COLUMNS holds a positive
      integer, and 0 ("do not truncate") when it is unset, unparsable, zero or
      negative. */
  function TermWidth(columns: string): int
  {
    if columns != "" then
      match Atoi(columns)
      case Some(w) => if w > 0 then w else 0
      case None => 0
    else 0
  }

  /** The width is never negative, and it is positive exactly when the
      variable parses as a positive int, which it then is. */
  lemma TermWidthSpec(columns: string)
    ensures TermWidth(columns) >= 0
    ensures TermWidth(columns) > 0 <==> Atoi(columns).Some? && Atoi(columns).value > 0
    ensures TermWidth(columns) > 0 ==> TermWidth(columns) == Atoi(columns).value
  {
  }

  /** Every positive 64-bit count, written in decimal with or without a plus
      sign, is taken as the width. */
  lemma TermWidthReadsBack(n: int)
    requires 0 < n <= MaxInt64
    ensures TermWidth(NatToString(n)) == n
    ensures TermWidth("+" + NatToString(n)) == n
  {
    AtoiIntToString(n);
    ParsePlusNatToString(n);
  }

  const Ellipsis: char := '\U{2026}'

  predicate EndsWithNewline(s: string) {
    |s| > 0 && s[|s| - 1] == '\n'
  }

  /** s without one trailing newline, if it has one. */
  function StripNewline(s: string): (r: string)
    ensures EndsWithNewline(s) ==> r + "\n" == s
    ensures !EndsWithNewline(s) ==> r == s
  {
    if EndsWithNewline(s) then s[..|s| - 1] else s
  }

  /** The width handed to runewidth.Truncate: one column less than the
      requested width, leaving room for the ellipsis, but never below 0. */
  function TargetWidth(width: int): (t: nat)
    ensures width > 0 ==> t == width - 1
    ensures width <= 0 ==> t == 0
  {
    if width - 1 < 0 then 0 else width - 1
  }

  /** truncateToWidth: text cut to fit width columns, ending in an ellipsis
      when it was cut; a single trailing newline is set aside first and put
      back afterwards. */
  function TruncateToWidth(c: Condition, text: string, width: int): string
    requires Lawful(c)
  {
    if width <= 0 then text
    else
      var hasNewline := EndsWithNewline(text);
      var body := if hasNewline then text[..|text| - 1] else text;
      if StringWidth(c, body) <= width then
        if hasNewline then body + "\n" else body
      else
        var result := Truncate(c, body, TargetWidth(width), [Ellipsis]);
        if hasNewline then result + "\n" else result
  }

  /** A width of 0 or less leaves the text alone, and a trailing newline is
      there after truncation exactly when it was there before. */
  lemma TruncateToWidthSpec(c: Condition, text: string, width: int)
    requires Lawful(c)
    ensures width <= 0 ==> TruncateToWidth(c, text, width) == text
    ensures EndsWithNewline(TruncateToWidth(c, text, width)) == EndsWithNewline(text)
  {
  }

  /** Text that already fits, once its trailing newline is set aside, comes
      back exactly as it was. */
  lemma TruncateFitting(c: Condition, text: string, width: int)
    requires Lawful(c)
    requires StringWidth(c, StripNewline(text)) <= width
    ensures TruncateToWidth(c, text, width) == text
  {
  }

  /** Text that does not fit is cut to a whole-rune prefix of its body whose
      width is at most width - 1, and an ellipsis follows; the cut drops at
      least one rune, and only the one trailing newline was set aside. */
  lemma TruncateCutting(c: Condition, text: string, width: int)
    requires Lawful(c)
    requires width > 0 && StringWidth(c, StripNewline(text)) > width
    ensures var body := StripNewline(text);
      var out := StripNewline(TruncateToWidth(c, text, width));
      var k := |out| - 1;
      && 0 <= k < |body|
      && out == body[..k] + [Ellipsis]
      && StringWidth(c, body[..k]) <= width - 1
  {
    var body := StripNewline(text);
    var result := Truncate(c, body, TargetWidth(width), [Ellipsis]);
    TruncateSpec(c, body, TargetWidth(width), [Ellipsis]);
    if EndsWithNewline(text) {
      assert StripNewline(result + "\n") == result;
    }
  }

  /** With an ellipsis one column wide (its usual width), truncated text fits:
      its body is at most width columns wide. */
  lemma TruncateFitsWidth(c: Condition, text: string, width: int)
    requires Lawful(c)
    requires width > 0 && StringWidth(c, [Ellipsis]) <= 1
    ensures StringWidth(c, StripNewline(TruncateToWidth(c, text, width))) <= width
  {
    var body := StripNewline(text);
    if StringWidth(c, body) > width {
      TruncateCutting(c, text, width);
      var out := StripNewline(TruncateToWidth(c, text, width));
      assert out == out[..|out| - 1] + [Ellipsis];
    } else {
      TruncateFitting(c, text, width);
    }
  }

  /** Truncating twice is truncating once. */
  lemma TruncateIdempotent(c: Condition, text: string, width: int)
    requires Lawful(c)
    requires StringWidth(c, [Ellipsis]) <= 1
    ensures TruncateToWidth(c, TruncateToWidth(c, text, width), width) == TruncateToWidth(c, text, width)
  {
    if width > 0 {
      TruncateFitsWidth(c, text, width);
      TruncateFitting(c, TruncateToWidth(c, text, width), width);
    }
  }

  /** The text Hyperlink links: truncated to the terminal width when Truncate is on. */
  function Shown(c: Condition, cfg: Config, text: string): (r: string)
    requires Lawful(c)
    ensures cfg.truncate ==> r == TruncateToWidth(c, text, TermWidth(cfg.columns))
    ensures !cfg.truncate || TermWidth(cfg.columns) == 0 ==> r == text
    ensures EndsWithNewline(r) == EndsWithNewline(text)
  {
    TruncateToWidthSpec(c, text, TermWidth(cfg.columns));
    if cfg.truncate then TruncateToWidth(c, text, TermWidth(cfg.columns)) else text
  }

  /** Hyperlink: the text, truncated when Truncate is on, and then wrapped in
      a link to the caller's line when the caller is known, plain otherwise. */
  function Hyperlink(c: Condition, cfg: Config, text: string, caller: Option<Location>): (r: string)
    requires Lawful(c)
    ensures caller.None? ==> r == Shown(c, cfg, text)
    ensures caller.Some? ==>
      r == FormatOSC8(Shown(c, cfg, text), FormatURL(cfg.linkFormat, caller.value.file, caller.value.line))
    ensures caller.Some? && NoEsc(caller.value.file) ==>
      ParseOSC8(r) == Some(Link(FormatURL(cfg.linkFormat, caller.value.file, caller.value.line), Shown(c, cfg, text)))
  {
    var text := if cfg.truncate then TruncateToWidth(c, text, TermWidth(cfg.columns)) else text;
    Hyperlinked.Hyperlink(cfg.linkFormat, text, caller)
  }

  /** Ln: the stamped line for msg, truncated when Truncate is on, plain when
      the caller is unknown and otherwise linked to the caller's line; what it
      shows still ends in a newline after truncation. */
  function Ln(c: Condition, cfg: Config, timer: Timer, now: int, msg: string, caller: Option<Location>): (r: string)
    requires Lawful(c)
    reads timer
    ensures caller.None? ==> r == Shown(c, cfg, LnText(timer.ElapsedMs(now), msg)) && EndsWithNewline(r)
    ensures caller.Some? ==>
      r == FormatOSC8(Shown(c, cfg, LnText(timer.ElapsedMs(now), msg)), FormatURL(cfg.linkFormat, caller.value.file, caller.value.line))
    ensures caller.Some? && NoEsc(caller.value.file) ==>
      && ParseOSC8(r) == Some(Link(FormatURL(cfg.linkFormat, caller.value.file, caller.value.line),
                                   Shown(c, cfg, LnText(timer.ElapsedMs(now), msg))))
      && EndsWithNewline(ParseOSC8(r).value.text)
  {
    var text := LnText(timer.ElapsedMs(now), msg);
    assert EndsWithNewline(text);
    Hyperlink(c, cfg, text, caller)
  }

  /** lastIndex: a backward scan for the last occurrence of ch. */
  method LastIndex(s: string, ch: char) returns (idx: int)
    ensures idx == LastIndexOf(s, ch)
  {
    var i := |s| - 1;
    while i >= 0
      invariant -1 <= i < |s|
      invariant forall k :: i < k < |s| ==> s[k] != ch
    {
      if s[i] == ch {
        LastIndexOfAt(s, ch, i);
        return i;
      }
      i := i - 1;
    }
    LastIndexOfSpec(s, ch);
    return -1;
  }

  /** A function name without its package path: what follows the last '/'. */
  function TrimPackage(name: string): string
  {
    var idx := LastIndexOf(name, '/');
    if idx >= 0 then name[idx + 1..] else name
  }

  /** The trimmed name is a suffix of the name without '/'; what was dropped,
      if anything, ends in '/'; a name without '/' is kept whole. */
  lemma TrimPackageSpec(name: string)
    ensures var r := TrimPackage(name);
      && '/' !in r
      && |r| <= |name| && r == name[|name| - |r|..]
      && (|r| < |name| ==> name[|name| - |r| - 1] == '/')
      && ('/' !in name ==> r == name)
  {
    LastIndexOfSpec(name, '/');
    var idx := LastIndexOf(name, '/');
    var r := TrimPackage(name);
    forall k | 0 <= k < |r| ensures r[k] != '/' {
      if idx >= 0 {
        assert r[k] == name[idx + 1 + k];
      }
    }
  }

  /** A stack frame as the runtime reports it. */
  datatype Frame = Frame(name: string, file: string, line: int)

  /** The text of one Stack line: "[", the milliseconds in five columns,
      "] #", the frame index, a space, the function name and a newline. */
  function StackText(ms: int, index: int, name: string): string
  {
    LnText(ms, "#" + IntToString(index) + " " + name)
  }

  /** What Stack prints for the frame at position index. */
  function StackLine(c: Condition, cfg: Config, ms: int, index: int, frame: Frame): string
    requires Lawful(c)
  {
    var text := StackText(ms, index, TrimPackage(frame.name));
    var width := if cfg.truncate then TermWidth(cfg.columns) else 0;
    var text := if cfg.truncate && width > 0 then TruncateToWidth(c, text, width) else text;
    FormatOSC8(text, FormatURL(cfg.linkFormat, frame.file, frame.line))
  }

  /** Each Stack line is its own envelope linking to its frame; the linked
      text ends in a newline, and when nothing is cut it is the Ln-style line
      "#index name" with the package path dropped from the name. */
  lemma StackLineReadsBack(c: Condition, cfg: Config, ms: int, index: int, frame: Frame)
    requires Lawful(c) && NoEsc(frame.file)
    ensures var link := ParseOSC8(StackLine(c, cfg, ms, index, frame));
      && link.Some?
      && link.value.url == FormatURL(cfg.linkFormat, frame.file, frame.line)
      && EndsWithNewline(link.value.text)
      && link.value.text == Shown(c, cfg, StackText(ms, index, TrimPackage(frame.name)))
      && (!cfg.truncate || TermWidth(cfg.columns) == 0 ==>
            link.value.text == LnText(ms, "#" + IntToString(index) + " " + TrimPackage(frame.name)))
  {
    var text := StackText(ms, index, TrimPackage(frame.name));
    assert EndsWithNewline(text);
    var width := if cfg.truncate then TermWidth(cfg.columns) else 0;
    var shown := if cfg.truncate && width > 0 then TruncateToWidth(c, text, width) else text;
    TruncateToWidthSpec(c, text, width);
    var url := FormatURL(cfg.linkFormat, frame.file, frame.line);
    assert StackLine(c, cfg, ms, index, frame) == FormatOSC8(shown, url);
    FormatURLNoEsc(cfg.linkFormat, frame.file, frame.line);
    ParseFormatOSC8(shown, url);
  }

  /** The body of Stack's loop for one frame: the name with its package path
      dropped, the stamped line, truncated when Truncate is on and a width is
      set, and the envelope linking it to the frame's source line. */
  method FormatFrame(c: Condition, cfg: Config, width: int, ms: int, i: int, frame: Frame) returns (line: string)
    requires Lawful(c)
    requires width == if cfg.truncate then TermWidth(cfg.columns) else 0
    ensures line == StackLine(c, cfg, ms, i, frame)
  {
    var funcName := frame.name;
    var idx := LastIndex(funcName, '/');
    if idx >= 0 {
      funcName := funcName[idx + 1..];
    }
    assert funcName == TrimPackage(frame.name);
    var text := StackText(ms, i, funcName);
    if cfg.truncate && width > 0 {
      text := TruncateToWidth(c, text, width);
    }
    var url := FormatURL(cfg.linkFormat, frame.file, frame.line);
    line := FormatOSC8(text, url);
  }

  /** f applied to each element of xs together with its position. */
  function MapIndexed<T, U>(f: (nat, T) -> U, xs: seq<T>): (ys: seq<U>)
    ensures |ys| == |xs|
  {
    if xs == [] then [] else MapIndexed(f, xs[..|xs| - 1]) + [f(|xs| - 1, xs[|xs| - 1])]
  }

  /** Position i of the result is f applied to i and xs[i]. */
  lemma {:induction false} MapIndexedAt<T, U>(f: (nat, T) -> U, xs: seq<T>, i: nat)
    requires i < |xs|
    ensures MapIndexed(f, xs)[i] == f(i, xs[i])
  {
    if i < |xs| - 1 {
      MapIndexedAt(f, xs[..|xs| - 1], i);
    }
  }

  /** Mapping one more element appends one more result. */
  lemma MapIndexedSnoc<T, U>(f: (nat, T) -> U, xs: seq<T>, n: nat)
    requires n < |xs|
    ensures MapIndexed(f, xs[..n + 1]) == MapIndexed(f, xs[..n]) + [f(n, xs[n])]
  {
    assert xs[..n + 1][..n] == xs[..n];
  }

  /** The line Stack prints for a frame at a given position. */
  function StackLineOf(c: Condition, cfg: Config, ms: int): (nat, Frame) -> string
    requires Lawful(c)
  {
    (k: nat, frame: Frame) => StackLine(c, cfg, ms, k, frame)
  }

  /** The lines Stack prints for the first count frames, in order. */
  function StackLines(c: Condition, cfg: Config, ms: int, frames: seq<Frame>, count: nat): (lines: seq<string>)
    requires Lawful(c)
    requires count <= |frames|
    ensures |lines| == count
  {
    MapIndexed(StackLineOf(c, cfg, ms), frames[..count])
  }

  /** Line i of the dump belongs to frame i and carries index i. */
  lemma StackLinesAt(c: Condition, cfg: Config, ms: int, frames: seq<Frame>, count: nat, i: nat)
    requires Lawful(c)
    requires i < count <= |frames|
    ensures StackLines(c, cfg, ms, frames, count)[i] == StackLine(c, cfg, ms, i, frames[i])
  {
    MapIndexedAt(StackLineOf(c, cfg, ms), frames[..count], i);
  }

  /** Stack: the stamp is the time since StartTimer (0 before it), taken once
      for the whole dump; then one line per frame, innermost first, numbered
      from 0, stopping after n lines or when the frames run out. A count below
      -2 makes the runtime panic when the pc buffer is allocated. */
  method Stack(c: Condition, cfg: Config, timer: Timer, now: int, n: int, frames: seq<Frame>) returns (out: seq<string>)
    requires Lawful(c)
    requires n + 2 >= 0
    ensures |out| == if n <= 0 then 0 else if n < |frames| then n else |frames|
    ensures out == StackLines(c, cfg, timer.ElapsedMs(now), frames, |out|)
  {
    var ms := timer.ElapsedMs(now);
    out := StackFrames(c, cfg, ms, n, frames);
  }

  /** Stack's frame loop, with the stamp already taken: the loop reads the
      next frame before checking the count, and stops after n lines or after
      the last frame. */
  method StackFrames(c: Condition, cfg: Config, ms: int, n: int, frames: seq<Frame>) returns (out: seq<string>)
    requires Lawful(c)
    ensures |out| == if n <= 0 then 0 else if n < |frames| then n else |frames|
    ensures out == StackLines(c, cfg, ms, frames, |out|)
  {
    out := [];
    if |frames| == 0 {
      return;
    }
    var width := 0;
    if cfg.truncate {
      width := TermWidth(cfg.columns);
    }
    var i := 0;
    while true
      invariant 0 <= i < |frames|
      invariant i == 0 || i <= n
      invariant out == StackLines(c, cfg, ms, frames, i)
      decreases |frames| - i
    {
      var frame := frames[i];
      var more := i + 1 < |frames|;
      if i >= n {
        break;
      }
      var line := FormatFrame(c, cfg, width, ms, i, frame);
      MapIndexedSnoc(StackLineOf(c, cfg, ms), frames, i);
      out := out + [line];
      i := i + 1;
      if !more {
        break;
      }
    }
  }
}

=== FILE: python.dfy ===
/** The Python package hyperlinked: the OSC 8 envelope, file uris with an
    optional line, the traceback line layout and the frame selection of
    print_stack. */
module PyHyperlinked {
  import opened Wrappers
  import opened Decimal
  import opened Text
  import opened Osc8

  /** hyperlink: the envelope built with an f-string. */
  function Hyperlink(text: string, url: string): (r: string)
    ensures r == FormatOSC8(text, url)
  {
    var osc := [Esc, ']'];
    var st := [Esc, '\\'];
    osc + "8;;" + url + st + text + osc + "8;;" + st
  }

  /** The url hyperlink_to_path builds: scheme, "://file/", the resolved path,
      and ":" and the line number when a line is given. */
  function FileURL(scheme: string, path: string, line: Option<int>): (url: string)
  {
    var url := scheme + "://file/" + path;
    if line.Some? then url + ":" + IntToString(line.value) else url
  }

  /** The uri always starts with scheme://file/path, and the ":line" suffix is
      there exactly when a line is given, in which case it reads back as that
      line. */
  lemma FileURLReadsBack(scheme: string, path: string, line: Option<int>)
    ensures var base := scheme + "://file/" + path;
      var url := FileURL(scheme, path, line);
      && |base| <= |url| && url[..|base|] == base
      && (line.Some? <==> |url| > |base|)
      && (line.Some? ==> url[|base|] == ':' && url[|base| + 1..] == IntToString(line.value))
      && (line.Some? ==> ParseDecimal(url[|base| + 1..]) == Some(line.value))
  {
    var base := scheme + "://file/" + path;
    if line.Some? {
      var d := IntToString(line.value);
      assert FileURL(scheme, path, line) == base + [':'] + d;
      SeparatorFields(base, ':', d);
      ParseIntToString(line.value);
    }
  }

  /** hyperlink_to_path: text linked to a file uri. The path is taken as already
      resolved. */
  function HyperlinkToPath(text: string, path: string, line: Option<int>, scheme: string): (r: string)
    ensures r == FormatOSC8(text, FileURL(scheme, path, line))
    ensures NoEsc(scheme) && NoEsc(path) ==> ParseOSC8(r) == Some(Link(FileURL(scheme, path, line), text))
  {
    var url := FileURL(scheme, path, line);
    if NoEsc(scheme) && NoEsc(path) then
      FileURLNoEsc(scheme, path, line);
      ParseFormatOSC8(text, url);
      Hyperlink(text, url)
    else Hyperlink(text, url)
  }

  /** A file uri holds an ESC only when its scheme or path does. */
  lemma FileURLNoEsc(scheme: string, path: string, line: Option<int>)
    requires NoEsc(scheme) && NoEsc(path)
    ensures NoEsc(FileURL(scheme, path, line))
  {
    if line.Some? {
      var d := IntToString(line.value);
      forall k | 0 <= k < |d| ensures d[k] != Esc {
        IntToStringChars(line.value, k);
      }
    }
  }

  /** hyperlinked: text linked to the caller's resolved file and line, or the
      plain text when the caller's frame cannot be found. */
  function HyperlinkAtCaller(text: string, caller: Option<(string, int)>, scheme: string): (r: string)
    ensures caller.None? ==> r == text
    ensures caller.Some? ==> r == FormatOSC8(text, FileURL(scheme, caller.value.0, Some(caller.value.1)))
    ensures caller.Some? && NoEsc(scheme) && NoEsc(caller.value.0) ==>
      ParseOSC8(r) == Some(Link(FileURL(scheme, caller.value.0, Some(caller.value.1)), text))
  {
    match caller
    case None => text
    case Some((path, line)) => HyperlinkToPath(text, path, Some(line), scheme)
  }

  /** The characters str.isspace() accepts. */
  predicate IsSpace(ch: char) {
    || ch == ' ' || '\t' <= ch <= '\r' || '\U{1C}' <= ch <= '\U{1F}'
    || ch == '\U{85}' || ch == '\U{A0}' || ch == '\U{1680}'
    || '\U{2000}' <= ch <= '\U{200A}' || ch == '\U{2028}' || ch == '\U{2029}'
    || ch == '\U{202F}' || ch == '\U{205F}' || ch == '\U{3000}'
  }

  /** The number of leading whitespace characters of s. */
  function LeadingSpace(s: string): (n: nat)
    ensures n <= |s|
    ensures forall i :: 0 <= i < n ==> IsSpace(s[i])
    ensures n < |s| ==> !IsSpace(s[n])
  {
    if s != [] && IsSpace(s[0]) then 1 + LeadingSpace(s[1..]) else 0
  }

  /** The number of trailing whitespace characters of s. */
  function TrailingSpace(s: string): (n: nat)
    ensures n <= |s|
    ensures forall i :: |s| - n <= i < |s| ==> IsSpace(s[i])
    ensures n < |s| ==> !IsSpace(s[|s| - 1 - n])
  {
    if s != [] && IsSpace(s[|s| - 1]) then 1 + TrailingSpace(s[..|s| - 1]) else 0
  }

  /** str.strip(): s without its leading and trailing whitespace. */
  function Strip(s: string): (r: string)
    ensures |r| <= |s|
    ensures r == [] || (!IsSpace(r[0]) && !IsSpace(r[|r| - 1]))
    ensures var i := LeadingSpace(s);
      && i + |r| <= |s| && r == s[i..i + |r|]
      && (forall k :: i + |r| <= k < |s| ==> IsSpace(s[k]))
  {
    var lead := LeadingSpace(s);
    var rest := s[lead..];
    var trail := TrailingSpace(rest);
    assert rest[..|rest| - trail] == s[lead..lead + |rest| - trail];
    rest[..|rest| - trail]
  }

  /** A stripped string strips to itself. */
  lemma StripIdempotent(s: string)
    ensures Strip(Strip(s)) == Strip(s)
  {
    var r := Strip(s);
    if r != [] {
      assert LeadingSpace(r) == 0;
      assert TrailingSpace(r) == 0;
      assert r[0..] == r;
    }
  }

  /** A traceback.FrameSummary: file name, line number (None when unknown),
      function name and source line (None when unavailable). */
  datatype FrameSummary = FrameSummary(filename: string, lineno: Option<int>, name: string, line: Option<string>)

  /** How an f-string renders an optional line number. */
  function LinenoText(lineno: Option<int>): string {
    match lineno
    case None => "None"
    case Some(n) => IntToString(n)
  }

  /** The text the first line of a frame links: File "name", line n. */
  function LocationText(frame: FrameSummary): string {
    "File \"" + frame.filename + "\", line " + LinenoText(frame.lineno)
  }

  /** Whether the frame's source line is printed: only when it is present and
      not empty. */
  predicate HasSourceLine(frame: FrameSummary) {
    frame.line.Some? && frame.line.value != ""
  }

  /** _format_hyperlinked_frame: two spaces, the location text linked to the
      frame's file and line, ", in " and the function name on the first line;
      then, when the frame has a source line, four spaces and that line
      stripped. The file name resolved against the file system is given as
      resolvedPath. */
  function FormatHyperlinkedFrame(frame: FrameSummary, resolvedPath: string, scheme: string): (r: string)
  {
    var location := HyperlinkToPath(LocationText(frame), resolvedPath, frame.lineno, scheme);
    var line := "  " + location + ", in " + frame.name + "\n";
    if frame.line.Some? && frame.line.value != "" then line + "    " + Strip(frame.line.value) + "\n" else line
  }

  /** The first line of a formatted frame starts with two spaces and one
      envelope linking the location text to the frame's file and line; it is
      followed by ", in " and the function name. A second line, four spaces
      and the stripped source, follows exactly when the frame has a non-empty
      source line; the whole ends in a newline. */
  lemma FormatHyperlinkedFrameLayout(frame: FrameSummary, resolvedPath: string, scheme: string)
    requires NoEsc(scheme) && NoEsc(resolvedPath)
    ensures var r := FormatHyperlinkedFrame(frame, resolvedPath, scheme);
      var link := HyperlinkToPath(LocationText(frame), resolvedPath, frame.lineno, scheme);
      var first := "  " + link + ", in " + frame.name + "\n";
      && ParseOSC8(link) == Some(Link(FileURL(scheme, resolvedPath, frame.lineno), LocationText(frame)))
      && |first| <= |r| && r[..|first|] == first
      && (HasSourceLine(frame) <==> |r| > |first|)
      && (HasSourceLine(frame) ==> r[|first|..] == "    " + Strip(frame.line.value) + "\n")
      && r[|r| - 1] == '\n'
  {
    var link := HyperlinkToPath(LocationText(frame), resolvedPath, frame.lineno, scheme);
    var first := "  " + link + ", in " + frame.name + "\n";
    var second := if HasSourceLine(frame) then "    " + Strip(frame.line.value) + "\n" else "";
    assert FormatHyperlinkedFrame(frame, resolvedPath, scheme) == first + second;
    JoinFields(first, second);
    assert first[|first| - 1] == '\n';
  }

  /** Where the two parts of a join sit, and how it ends. */
  lemma JoinFields(a: string, b: string)
    ensures var r := a + b;
      && |r| == |a| + |b| && r[..|a|] == a && r[|a|..] == b
      && (|b| > 0 ==> r[|r| - 1] == b[|b| - 1])
      && (|b| == 0 && |a| > 0 ==> r[|r| - 1] == a[|a| - 1])
  {
    assert (a + b)[..|a|] == a;
    assert (a + b)[|a|..] == b;
  }

  /** Reversal of a sequence. */
  function Reverse<T>(s: seq<T>): (r: seq<T>)
    ensures |r| == |s|
  {
    if s == [] then [] else Reverse(s[1..]) + [s[0]]
  }

  /** Position k of a reversed sequence holds position |s| - 1 - k. */
  lemma {:induction false} ReverseAt<T>(s: seq<T>, k: nat)
    requires k < |s|
    ensures Reverse(s)[k] == s[|s| - 1 - k]
  {
    if k < |s| - 1 {
      ReverseAt(s[1..], k);
    }
  }

  /** traceback.extract_stack(limit=...): from a walk of the stack that starts
      at the innermost frame, a non-negative limit keeps that many innermost
      frames and a negative one that many outermost frames; no limit keeps
      all; the result lists them outermost first. */
  function ExtractStack<T>(walk: seq<T>, limit: Option<int>): (r: seq<T>)
  {
    var kept :=
      match limit
      case None => walk
      case Some(k) =>
        if k >= 0 then (if k < |walk| then walk[..k] else walk)
        else (if -k < |walk| then walk[|walk| + k..] else walk);
    Reverse(kept)
  }

  /** The frames print_stack formats. Without f, walk starts at print_stack's
      own frame: one more frame than the limit is taken and the last one, its
      own, is dropped. With f, walk starts at f and the limit is used as given. */
  function PrintStackFrames<T>(walk: seq<T>, fromCurrent: bool, limit: Option<int>): (r: seq<T>)
  {
    if fromCurrent then
      var stack := ExtractStack(walk, if limit.Some? then Some(limit.value + 1) else None);
      if |stack| == 0 then [] else stack[..|stack| - 1]
    else ExtractStack(walk, limit)
  }

  /** Without f and with no limit or a non-negative one, print_stack prints
      its callers, never its own frame: at most limit of them, the innermost
      ones, outermost first, so that the direct caller comes last. */
  lemma PrintStackCallers<T>(walk: seq<T>, limit: Option<int>)
    requires |walk| > 0
    requires limit.None? || limit.value >= 0
    ensures var r := PrintStackFrames(walk, true, limit);
      var count := if limit.None? || limit.value + 1 >= |walk| then |walk| - 1 else limit.value;
      && |r| == count
      && (limit.Some? ==> |r| <= limit.value)
      && forall k :: 0 <= k < count ==> r[k] == walk[count - k]
  {
    var count := if limit.None? || limit.value + 1 >= |walk| then |walk| - 1 else limit.value;
    var kept := walk[..count + 1];
    if limit.None? || limit.value + 1 >= |walk| {
      assert kept == walk;
    }
    assert ExtractStack(walk, if limit.Some? then Some(limit.value + 1) else None) == Reverse(kept);
    var r := PrintStackFrames(walk, true, limit);
    assert r == Reverse(kept)[..count];
    forall k | 0 <= k < count ensures r[k] == walk[count - k] {
      ReverseAt(kept, k);
    }
  }

  /** Without f and with a negative limit, print_stack still adds one to the
      limit before dropping the last frame. Limit -1 prints nothing; a limit
      k <= -2 keeps the -k - 1 outermost frames and then drops the innermost
      of them. The dropped frame sits at position |walk| + k + 1 >= 1 of the
      innermost-first walk, so it is a real caller and not print_stack's own
      frame at position 0; only -k - 2 frames are printed, outermost first.
      When the walk holds no more than -k - 1 frames, every frame is kept and
      the dropped one is print_stack's own, exactly as with no limit. */
  lemma PrintStackNegativeLimit<T>(walk: seq<T>, k: int)
    requires k < 0
    ensures var r := PrintStackFrames(walk, true, Some(k));
      && (k == -1 ==> r == [])
      && (k <= -2 && -k - 1 < |walk| ==>
            && |r| == -k - 2
            && (forall j :: 0 <= j < |r| ==> r[j] == walk[|walk| - 1 - j])
            && ExtractStack(walk, Some(k + 1)) == r + [walk[|walk| + k + 1]])
      && (-k - 1 >= |walk| ==> r == PrintStackFrames(walk, true, None))
  {
    if k <= -2 && -k - 1 < |walk| {
      var kept := walk[|walk| + k + 1..];
      assert ExtractStack(walk, Some(k + 1)) == Reverse(kept);
      var r := PrintStackFrames(walk, true, Some(k));
      assert r == Reverse(kept)[..|kept| - 1];
      forall j | 0 <= j < |r| ensures r[j] == walk[|walk| - 1 - j] {
        ReverseAt(kept, j);
      }
      ReverseAt(kept, |kept| - 1);
      assert Reverse(kept) == r + [Reverse(kept)[|kept| - 1]];
    } else if k == -1 {
      assert ExtractStack(walk, Some(0)) == Reverse(walk[..0]);
      assert walk[..0] == [];
    }
  }
}

=== FILE: runewidth.dfy ===
/** The display-width library the Go truncator calls (go-runewidth). Its width
    tables (Unicode Standard Annex #11, East Asian Width) and the exact cut its
    Truncate chooses are not part of this model: a Condition carries them as
    two functions, and Lawful states everything the truncator relies on. */
module RuneWidth {

  /** stringWidth: the columns a string occupies (runewidth.StringWidth);
      truncateAt: the number of leading runes Truncate keeps for a given
      target width. */
  datatype Condition = Condition(stringWidth: string -> nat, truncateAt: (string, nat) -> nat)

  /** The empty string takes no columns, widths add up over concatenation,
      every rune is 0, 1 or 2 columns wide, and the cut keeps a prefix of
      whole runes whose width stays within the target. */
  ghost predicate Lawful(c: Condition) {
    && c.stringWidth([]) == 0
    && (forall a: string, b: string :: c.stringWidth(a + b) == c.stringWidth(a) + c.stringWidth(b))
    && (forall r: char :: c.stringWidth([r]) <= 2)
    && (forall s: string, w: nat :: c.truncateAt(s, w) <= |s| && c.stringWidth(s[..c.truncateAt(s, w)]) <= w)
  }

  /** runewidth.StringWidth: the columns a string occupies. */
  function StringWidth(c: Condition, s: string): nat
  {
    c.stringWidth(s)
  }

  /** A string is at most twice as many columns wide as it has runes. */
  lemma {:induction false} StringWidthBound(c: Condition, s: string)
    requires Lawful(c)
    ensures StringWidth(c, s) <= 2 * |s|
  {
    if s != [] {
      assert s == [s[0]] + s[1..];
      StringWidthBound(c, s[1..]);
    }
  }

  /** runewidth.Truncate: a string that fits is returned as it is; otherwise a
      whole-rune prefix that fits the target, followed by tail. */
  function Truncate(c: Condition, s: string, w: nat, tail: string): string
    requires Lawful(c)
  {
    if StringWidth(c, s) <= w then s
    else s[..c.truncateAt(s, w)] + tail
  }

  /** What Truncate returns: s itself when it fits; otherwise a proper prefix
      of whole runes that fits the target, followed by tail. */
  lemma TruncateSpec(c: Condition, s: string, w: nat, tail: string)
    requires Lawful(c)
    ensures var r := Truncate(c, s, w, tail);
      && (StringWidth(c, s) <= w ==> r == s)
      && (StringWidth(c, s) > w ==>
            var k := |r| - |tail|;
            0 <= k < |s| && r == s[..k] + tail && StringWidth(c, s[..k]) <= w)
  {
    if StringWidth(c, s) > w {
      var k := c.truncateAt(s, w);
      assert StringWidth(c, s[..k]) <= w;
      assert s[..k] != s;
    }
  }
}

=== FILE: text.dfy ===
/** Small string helpers shared by the Go and Python models. */
module Text {

  /** Where the parts of head, a separator and tail sit in their join. */
  lemma SeparatorFields(head: string, sep: char, tail: string)
    ensures var u := head + [sep] + tail;
      && |u| == |head| + 1 + |tail|
      && u[..|head|] == head && u[|head|] == sep && u[|head| + 1..] == tail
  {
    var u := head + [sep] + tail;
    assert u[..|head|] == head;
    assert u[|head| + 1..] == tail;
  }

  /** A run of n spaces. */
  function Spaces(n: nat): (r: string)
    ensures |r| == n && forall i :: 0 <= i < n ==> r[i] == ' '
  {
    seq(n, _ => ' ')
  }

  /** Right-aligns s in a field of the given width by padding on the left with
      spaces, as the width in fmt's %5d does; a longer s is left as it is. */
  function PadLeft(s: string, width: nat): string
  {
    if |s| < width then Spaces(width - |s|) + s else s
  }

  /** The padded string is width long, or s itself when s is longer; it ends
      in s and holds only spaces before it. */
  lemma PadLeftLayout(s: string, width: nat)
    ensures var r := PadLeft(s, width);
      && |r| == (if |s| < width then width else |s|)
      && r[|r| - |s|..] == s
      && forall i :: 0 <= i < |r| - |s| ==> r[i] == ' '
  {
    if |s| < width {
      assert PadLeft(s, width)[width - |s|..] == s;
    }
  }

  /** s without its leading spaces. */
  function TrimLeadingSpaces(s: string): (r: string)
    ensures |r| <= |s| && r == s[|s| - |r|..]
    ensures forall i :: 0 <= i < |s| - |r| ==> s[i] == ' '
    ensures r == [] || r[0] != ' '
  {
    if s != [] && s[0] == ' ' then TrimLeadingSpaces(s[1..]) else s
  }

  /** Removing the padding gives back the padded text, whenever that text does
      not itself start with a space. */
  lemma {:induction false} TrimPadLeft(s: string, width: nat)
    requires s == [] || s[0] != ' '
    ensures TrimLeadingSpaces(PadLeft(s, width)) == s
  {
    var p := PadLeft(s, width);
    TrimAfterSpaces(|p| - |s|, s);
    assert p == Spaces(|p| - |s|) + s;
  }

  lemma {:induction false} TrimAfterSpaces(n: nat, s: string)
    requires s == [] || s[0] != ' '
    ensures TrimLeadingSpaces(Spaces(n) + s) == s
  {
    if n == 0 {
      assert Spaces(0) + s == s;
    } else {
      assert (Spaces(n) + s)[1..] == Spaces(n - 1) + s;
      TrimAfterSpaces(n - 1, s);
    }
  }

  /** The first position at or after from that holds ch, or |s| when there is none. */
  function IndexFrom(s: string, ch: char, from: nat): (i: nat)
    requires from <= |s|
    ensures from <= i <= |s|
    ensures i < |s| ==> s[i] == ch
    ensures forall k :: from <= k < i ==> s[k] != ch
    decreases |s| - from
  {
    if from == |s| || s[from] == ch then from else IndexFrom(s, ch, from + 1)
  }

  /** IndexFrom finds the first ch after a run without ch. */
  lemma IndexFromAfter(s: string, ch: char, from: nat, at: nat)
    requires from <= at < |s| && s[at] == ch
    requires forall k :: from <= k < at ==> s[k] != ch
    ensures IndexFrom(s, ch, from) == at
  {
  }

  /** The last position that holds ch, or -1 when there is none. */
  function LastIndexOf(s: string, ch: char): (i: int)
    ensures -1 <= i < |s|
  {
    if s == [] then -1
    else if s[|s| - 1] == ch then |s| - 1
    else LastIndexOf(s[..|s| - 1], ch)
  }

  /** LastIndexOf gives a position that holds ch with no ch after it, or -1
      when s holds no ch at all. */
  lemma {:induction false} LastIndexOfSpec(s: string, ch: char)
    ensures var i := LastIndexOf(s, ch);
      && (i >= 0 ==> s[i] == ch)
      && (forall k :: i < k < |s| ==> s[k] != ch)
  {
    if s != [] && s[|s| - 1] != ch {
      var t := s[..|s| - 1];
      LastIndexOfSpec(t, ch);
      forall k | LastIndexOf(t, ch) < k < |s| ensures s[k] != ch {
        if k < |s| - 1 {
          assert s[k] == t[k];
        }
      }
    }
  }

  /** LastIndexOf finds the last ch: the one with none after it. */
  lemma {:induction false} LastIndexOfAt(s: string, ch: char, at: nat)
    requires at < |s| && s[at] == ch
    requires forall k :: at < k < |s| ==> s[k] != ch
    ensures LastIndexOf(s, ch) == at
  {
    if at < |s| - 1 {
      var t := s[..|s| - 1];
      forall k | at < k < |t| ensures t[k] != ch {
        assert t[k] == s[k];
      }
      LastIndexOfAt(t, ch, at);
    }
  }
}

=== FILE: wrappers.dfy ===
/** Optional values: a caller lookup that may fail, a Python argument that may be None. */
module Wrappers {

  datatype Option<+T> = None | Some(value: T)
}
